=== FILE: README.md ===
# Candidate screening service: training-set assembly and prediction features

This project models the logic of the screening service in `api_modelo.py` that is not database, library or HTTP plumbing. It is written in Dafny.

- **`retrain`** starts from three inputs: the competency rows `(id_candidatura, nombre_competencia, nota)`, the application table `(id_candidatura, status)`, which the training query filters to the five eligible statuses, and each application's candidate base data `(edad, nota_media, nivel_ingles)`. From these it builds the training inputs `X` and labels `y`.
- **`predict`** builds the one-row feature frame for an application and maps the classifier's class to a verdict.

The SQL results are plain inputs:
- competency rows and the application table are sequences in fetch order;
- base data is a map from application id to `Base`.

The classifier is opaque. `fit` turns a training set into a model, and `classify` applies a model to a feature row.

Modules:

- `Http`: the error outcomes, the `Result` type the operations return instead of raising, and `Error.StatusCode`, which maps each error to its HTTP status (lines 59, 97 and 142, and 500 for the uncaught database error). The statuses the rows below quote come from this mapping; `Retrain.RetrainStatus` and `Predict.PredictStatus` state them.
- `Schema`: the fixed vocabulary. It holds the eight required competencies, the feature columns of both frames, the eligible and positive statuses, the label rule and the verdict rule.
- `Grouping`: the fold of the competency rows into the per-application map `competencias_dict`.
- `Assembly`: the status filter of the training query, the completeness filter, the eleven-cell feature row and the training loop. The loop appears twice: as a fold (`Assemble`) and as the loop of the source (`BuildTrainingSet`).
- `Retrain`: the two emptiness checks (404 and 400) around assembly.
- `Predict`: the predict query with its scalar subqueries and `IFNULL(…, 0)` defaults, the not-found check, and the verdict.
- `Consistency`: training and prediction agree. For a complete application with at most one row per required competency, the predict query yields exactly the row retrain trained on.
- `Service`: the loaded model versus the stored model file, around retrain and predict.

Deviations from the code are modelling choices, each listed under "Left out":
- scores and base data are integers;
- string comparison is exact;
- the SQL rows arrive in an unspecified but fixed order.

## Model

| member | source | states |
|---|---|---|
| Schema.RequiredDistinct | api_modelo.py:110 | No competency name appears twice in the required list. |
| Schema.Label | api_modelo.py:139 | The label is 0 or 1. Every status labelled 1 is one the training query selects (line 92). Among the selected statuses, the label is 0 exactly for "Descartado". |
| Schema.Verdict | api_modelo.py:68 | The verdict is "Admitido" exactly when the class is 1, and "Rechazado" exactly when it is not. |
| Schema.SelectedAreRequired | api_modelo.py:44-51 | The predict query's subqueries select exactly the required competencies of line 110, in the same order. |
| Schema.ColumnsAgree | api_modelo.py:62-64 | The predict frame has the same eleven columns in the same order as the training frame (line 145): three base columns, then the eight required competencies in list order. |
| Schema.ColumnsNamed | api_modelo.py:145 | The feature columns carry the data-frame column names, in the listed order. |
| Grouping.Insert | api_modelo.py:102-104 | One grouping step: afterwards the row's application has an entry, and the row's name maps to the row's `nota` in it. |
| Grouping.InsertKeepsOthers | api_modelo.py:102-104 | A grouping step adds only the row's application and name. Every other application, and every other name of this application, keeps what it had. |
| Grouping.Group | api_modelo.py:100-104 | The grouped map has an entry for an application exactly when some competency row carries its id. |
| Grouping.GroupLastWriteWins | api_modelo.py:100-104 | If no later row carries the same (id, name) pair, the score stored for that pair is the row's `nota`. |
| Grouping.GroupEntryHasRow | api_modelo.py:100-104 | Every stored score comes from a row with that pair, and from the last such row. |
| Grouping.GroupHasPair | api_modelo.py:100-104 | A pair has a stored score exactly when some row carries it. |
| Assembly.Eligible | api_modelo.py:89-93 | An application row is selected exactly when it is in the table and its status is one of the five eligible ones. Selection never adds rows; `Assembly.EligibleBag` states that it neither drops nor repeats one. |
| Assembly.EligibleBag | api_modelo.py:89-93 | Each row of the table with an eligible status is selected exactly as many times as the table holds it, and every other row zero times. |
| Assembly.TrainingRow | api_modelo.py:126-138 | The feature row has one cell per training column, eleven in all. Each cell holds what its column names: the base data, or the competency's score, or 0 when the score is absent. |
| Assembly.CompleteRowUsesStoredScores | api_modelo.py:130-137 | When all eight competencies are present (line 115), competency cell `k` is the stored score, never the `.get` default. |
| Assembly.Assemble | api_modelo.py:107-139 | X and y grow in lockstep: equal lengths, never more examples than selected applications. |
| Assembly.KeptIndices | api_modelo.py:111-125 | Lists, in strictly increasing order, exactly the positions of selected applications that have a competency entry, all eight competencies and base data. |
| Assembly.AssembleFollowsKept | api_modelo.py:107-139 | The j-th feature row and the j-th label belong to the same application: the j-th kept one, in selection order. |
| Assembly.AssembledScoresAreStored | api_modelo.py:115-137 | Every competency cell of every assembled row is that application's stored score. |
| Assembly.BuildTrainingSet | api_modelo.py:107-139 | The loop as written, with its nested checks, builds X and y of equal length, equal to the fold `Assemble`. |
| Retrain.TrainingData | api_modelo.py:96-142 | Retrain fails with the no-data error (404) exactly when there are no competency rows or no selected application. Its only other failure is the no-valid-data error (400). On success X and y are non-empty, of equal length, and equal to the assembled set. |
| Retrain.CompleteIffRowsPresent | api_modelo.py:111-125 | An application passes the three checks of lines 112, 115 and 125 (`Assembly.Contributes`) exactly when it has base data and, for each required name, some competency row with its id and that name. |
| Retrain.InsufficientValidData | api_modelo.py:141-142 | Retrain answers 400 exactly when there is data but no selected application contributes. |
| Retrain.RetrainStatus | api_modelo.py:96-142 | A failed retrain answers 404 exactly when there are no competency rows or no selected application (line 97), and 400 exactly when there is data but no selected application contributes (line 142). |
| Retrain.RetrainExamples | api_modelo.py:111-139 | On success, every example comes from a selected application of the table, in the order of the selected rows, with its own feature row and label. Its label is 0 exactly for "Descartado". |
| Predict.MatchesNone | api_modelo.py:44-51 | A competency subquery returns no row exactly when no competency row carries (id, name). |
| Predict.MatchesOnly | api_modelo.py:44-51 | When a single row carries (id, name), the subquery returns exactly its score. |
| Predict.MatchesMany | api_modelo.py:44-51 | The subquery returns several rows exactly when two distinct rows carry (id, name). |
| Predict.ScalarScore | api_modelo.py:44-51 | The `IFNULL` scalar subquery fails only with the many-rows database error, never with any other. |
| Predict.ScalarScoreCases | api_modelo.py:44-51 | The three outcomes of the scalar subquery. No row carrying (id, name) gives 0. A single row gives its score. The query fails exactly when two distinct rows carry the pair. |
| Predict.Subqueries | api_modelo.py:44-55 | The subqueries in select order fail exactly when one of them fails, and then with the many-rows error. Otherwise there is one value per name, namely that subquery's value. |
| Predict.PredictRow | api_modelo.py:42-59 | No base row gives not-found (404). Otherwise the query fails exactly when a subquery fails, and then with the many-rows error. On success the row has eleven cells: the base data, then the value of each competency subquery in select order. |
| Predict.Predict | api_modelo.py:66-70 | The endpoint fails exactly when the query fails, with the same error: not-found, or the uncaught database error. On success the response carries the requested id, and the verdict is "Admitido" exactly when the classifier's class for the feature row is 1. |
| Predict.PredictStatus | api_modelo.py:56-59 | A failed prediction answers 404 exactly when the application has no base row (line 59), and 500, the uncaught database error, exactly when it has one. |
| Predict.MissingCompetencyIsZero | api_modelo.py:44-51 | A competency without any row reads as 0, not as an error. With base data present and every other subquery succeeding, the predict query succeeds and that competency's cell is 0. |
| Consistency.SubqueryMatchesGroup | api_modelo.py:44-51 | When at most one competency row carries (id, name), the subquery returns the score the grouping of lines 100-104 stored for the pair. |
| Consistency.SubqueriesMatchGroup | api_modelo.py:44-51 | The same holds for every name in a list the grouping holds, when no listed name is carried by two rows of the application. |
| Consistency.SelectedAreGrouped | api_modelo.py:115 | For an application that contributes, the grouping holds every competency the predict query selects. |
| Consistency.PredictRowSucceeds | api_modelo.py:58-59 | The predict query succeeds once base data exists and every competency subquery succeeds. |
| Consistency.TrainingRowOfComplete | api_modelo.py:126-138 | A complete application's training row is its three base cells followed by its eight stored scores. |
| Consistency.PredictRowOfScores | api_modelo.py:42-64 | When every subquery yields the score a complete map holds, the predict row is the base cells followed by those scores. |
| Consistency.PredictRowMatchesTrainingRow | api_modelo.py:62-64 | In that situation the predict row equals the training row built from the same scores. |
| Consistency.TrainPredictAgree | api_modelo.py:126-138 | Take a contributing application with at most one row per required competency; other names may repeat, since the predict query never asks for them. The predict query yields exactly the feature row retrain trained on for it. |
| Consistency.DuplicateNameDiverges | api_modelo.py:44-51 | Suppose two competency rows of an application carry the same required name. If it has base data, the predict query fails with the many-rows error (an HTTP 500). If it contributes, retrain instead trains on the score of the last such row (lines 102-104 and 130-137). |
| Service.Start | api_modelo.py:26-28 | At start-up the process holds the model the file holds. |
| Service.Restart | api_modelo.py:26-28 | A restart loads the stored model into the process and leaves the file as it is. |
| Service.PredictOn | api_modelo.py:67 | A running service's predict fails exactly when the query fails, with the same error. Its verdict is "Admitido" exactly when the model held in the process, not the file, classifies the feature row as 1. |
| Service.RetrainAsWritten | api_modelo.py:166-170 | Retrain fails exactly when assembly fails, with the same error. On success the freshly fitted classifier replaces the stored model file, and the model held in the process is unchanged. |
| Service.RetrainLeavesPredictionsAsWritten | api_modelo.py:26-28 | After a successful retrain as written, every prediction is the same as before. Only a restart makes predict use the newly fitted classifier. |
| Service.StaleModelServed | api_modelo.py:26-28 | Concrete case: a service starts with a model that rejects everyone and retrains into one that admits everyone. Retrain succeeds, yet predict still answers "Rechazado"; after a restart it answers "Admitido". |
| Service.RetrainAndReload | api_modelo.py:166-170 | Corrected retrain: the same failures, and on success the fitted classifier is both stored and loaded. |
| Service.PredictSeesRetrainedModel | api_modelo.py:166-170 | With the reload, every prediction after a successful retrain is made by the newly fitted classifier, and a restart changes nothing. |

## Left out

- Database access is not modelled: the pymysql connection, the SQL text, the cursors and the connection close in `finally`. The query results are inputs: competency rows, the application table that the status filter selects from, and a map from application id to base data.
- The SQL statements have no `ORDER BY`, so row order is whatever the database returns. The model takes it as the given input order. With duplicate (id, name) competency rows, which score wins in the grouping therefore depends on that order. When the repeated name is one of the eight the predict query selects, the predict query fails on such rows (`Consistency.DuplicateNameDiverges`). A repeated name outside the eight does not affect predict (`Consistency.TrainPredictAgree`).
- The base-data join is a map, so an application has at most one candidate row. `fetchone` on a join that returns several rows is not modelled.
- SQL `NULL` values are not modelled. Neither is MySQL collation: comparisons of status and competency names are exact here, where MySQL's default collation ignores case and accents. Two members depend on this:
- Schema.Label: "0 exactly for Descartado" holds for statuses as spelled at line 92. The SQL filter there would also select, say, "ofertado", and Python's `in` at line 139 labels that 0.
- Consistency.TrainPredictAgree: its requires compare names exactly. Rows named "Profesionalidad" and "PROFESIONALIDAD" are two different keys to the dictionary at lines 102-104 and the check at line 115, and the requires accept them. Under MySQL's collation both rows match the subquery at line 44, which then fails with the many-rows error.
- `nota`, `edad` and `nota_media` are integers, since nothing in the core computes with them. Floating point is left out.
- The sklearn pipeline and its `fit`/`predict` are opaque parameters `fit` and `classify`. This covers scaling, one-hot encoding and the random forest. A classifier error on a malformed frame is not modelled.
- joblib loading and saving of the model file are not modelled. The overwrite at lines 169-170 is not atomic, so a concurrent predict racing a retrain may see a half-written file. Concurrency is not modelled.
- pandas DataFrame construction is modelled only as the column list it fixes. dotenv configuration, FastAPI routing and the async handlers are left out.
- Assembly.Eligible: models the result of the status `WHERE` clause as a filter over an application table. Its contract and `Assembly.EligibleBag` state which rows are selected and how many times, not that they keep the table's order: the query has no `ORDER BY`, so the source promises no order. The later contracts are stated in the order of the selected rows.

## Findings

`retrain` saves the new classifier under the heading "Guardar el nuevo modelo" (line 168) and answers "Modelo reentrenado exitosamente." (line 172). That presents the retrained model as the one now in service. The running process does not use it. The table below records it. The rest of the model uses the corrected `Service.RetrainAndReload`.

| source | as written | input that shows it | evidently intended | confidence | as-written member | corrected member |
|---|---|---|---|---|---|---|
| api_modelo.py:166-170 | `retrain` fits a new classifier and overwrites the model file. It never rebinds the global `model` loaded once at lines 26-28, which `predict` uses at line 67. Predictions keep coming from the old classifier until the process restarts, although retrain reports success. | The service starts with a model that rejects everyone. Competency rows give application 7 a score of 1 in all eight competencies, its status is "Ofertado", and it has base data. A retrain fits a model that admits everyone. `GET /predict?id_candidatura=7` still answers "Rechazado". | After a successful retrain, predict uses the newly fitted classifier. | medium; not executed | Service.RetrainAsWritten, Service.StaleModelServed | Service.RetrainAndReload, Service.PredictSeesRetrainedModel |

=== FILE: assembly.dfy ===
/** Assembly of the training set: the status filter of the training query,
    the completeness filter, the eleven-column feature row and the label. */
module Assembly {
  import opened Schema
  import opened Grouping

  /** One row of the application query: (id_candidatura, status). */
  datatype AppRow = AppRow(id: AppId, status: string)

  /** The training inputs X and labels y, kept as two parallel lists. */
  datatype TrainingSet = TrainingSet(x: seq<Row>, y: seq<int>)

  /** The applications the training query selects, in table order. */
  function Eligible(table: seq<AppRow>): (e: seq<AppRow>)
    ensures forall a :: a in e <==> a in table && a.status in EligibleStatuses
    ensures |e| <= |table|
    decreases |table|
  {
    if |table| == 0 then []
    else
      var rest := Eligible(table[1..]);
      assert forall a :: a in table <==> a == table[0] || a in table[1..];
      if table[0].status in EligibleStatuses then [table[0]] + rest else rest
  }

  /** Selection neither drops nor repeats an eligible row: each one is
      selected as many times as the table holds it, any other row never. */
  lemma {:induction false} EligibleBag(table: seq<AppRow>)
    ensures forall a :: multiset(Eligible(table))[a] ==
                          if a.status in EligibleStatuses then multiset(table)[a] else 0
    decreases |table|
  {
    if |table| > 0 {
      EligibleBag(table[1..]);
      assert table == [table[0]] + table[1..];
    }
  }

  /** All eight required competencies have a score. */
  predicate HasAllRequired(scores: map<string, int>) {
    forall k :: 0 <= k < |RequiredCompetencies| ==> RequiredCompetencies[k] in scores
  }

  /** An application contributes a training example exactly when it has
      competency scores, all eight required ones among them, and base data. */
  predicate Contributes(a: AppRow, groups: Groups, base: map<AppId, Base>) {
    && a.id in groups
    && HasAllRequired(groups[a.id])
    && a.id in base
  }

  /** The feature row built for one application, listed column by column;
      each cell holds the value its training column names. */
  function TrainingRow(b: Base, scores: map<string, int>): (r: Row)
    ensures |r| == |TrainColumns|
    ensures forall i :: 0 <= i < |r| ==> r[i] == ColumnValue(b, scores, TrainColumns[i])
  {
    [ Num(b.edad),
      Num(b.notaMedia),
      Cat(b.nivelIngles),
      Num(ScoreOr0(scores, "Profesionalidad")),
      Num(ScoreOr0(scores, "Dominio")),
      Num(ScoreOr0(scores, "Resiliencia")),
      Num(ScoreOr0(scores, "HabilidadesSociales")),
      Num(ScoreOr0(scores, "Liderazgo")),
      Num(ScoreOr0(scores, "Colaboracion")),
      Num(ScoreOr0(scores, "Compromiso")),
      Num(ScoreOr0(scores, "Iniciativa")) ]
  }

  /** For a complete application no default is taken: each competency cell
      is the stored score. */
  lemma {:induction false} CompleteRowUsesStoredScores(b: Base, scores: map<string, int>)
    requires HasAllRequired(scores)
    ensures forall k :: 0 <= k < |RequiredCompetencies| ==>
              TrainingRow(b, scores)[3 + k] == Num(scores[RequiredCompetencies[k]])
  {
    ColumnsAgree();
    forall k | 0 <= k < |RequiredCompetencies|
      ensures TrainingRow(b, scores)[3 + k] == Num(scores[RequiredCompetencies[k]])
    {
      assert TrainColumns[3 + k] == Score(RequiredCompetencies[k]);
    }
  }

  function FeatureRow(a: AppRow, groups: Groups, base: map<AppId, Base>): Row
    requires Contributes(a, groups, base)
  {
    TrainingRow(base[a.id], groups[a.id])
  }

  /** The training loop over the selected applications, as a fold from the
      first to the last; X and y grow in lockstep. */
  function Assemble(apps: seq<AppRow>, groups: Groups, base: map<AppId, Base>): (ts: TrainingSet)
    ensures |ts.x| == |ts.y| <= |apps|
    decreases |apps|
  {
    if |apps| == 0 then TrainingSet([], [])
    else
      var prev := Assemble(apps[..|apps| - 1], groups, base);
      var a := apps[|apps| - 1];
      if Contributes(a, groups, base) then
        TrainingSet(prev.x + [FeatureRow(a, groups, base)], prev.y + [Label(a.status)])
      else prev
  }

  /** The positions of the applications that contribute, in increasing
      order: every listed position contributes and every contributing
      position is listed. */
  function KeptIndices(apps: seq<AppRow>, groups: Groups, base: map<AppId, Base>): (idx: seq<nat>)
    ensures forall j :: 0 <= j < |idx| ==> idx[j] < |apps| && Contributes(apps[idx[j]], groups, base)
    ensures forall j, k :: 0 <= j < k < |idx| ==> idx[j] < idx[k]
    ensures forall i :: 0 <= i < |apps| && Contributes(apps[i], groups, base) ==> i in idx
    decreases |apps|
  {
    if |apps| == 0 then []
    else
      var n := |apps| - 1;
      var prev := KeptIndices(apps[..n], groups, base);
      assert forall i :: 0 <= i < n ==> apps[..n][i] == apps[i];
      if Contributes(apps[n], groups, base) then prev + [n] else prev
  }

  /** The assembled set is exactly one example per contributing application,
      in the order of the selected rows: the j-th feature row and the j-th
      label belong to the same application. */
  lemma {:induction false} AssembleFollowsKept(apps: seq<AppRow>, groups: Groups, base: map<AppId, Base>)
    ensures var ts := Assemble(apps, groups, base);
            var idx := KeptIndices(apps, groups, base);
            && |ts.x| == |ts.y| == |idx|
            && forall j :: 0 <= j < |idx| ==>
                 && ts.x[j] == FeatureRow(apps[idx[j]], groups, base)
                 && ts.y[j] == Label(apps[idx[j]].status)
    decreases |apps|
  {
    if |apps| > 0 {
      var n := |apps| - 1;
      AssembleFollowsKept(apps[..n], groups, base);
      var idx := KeptIndices(apps[..n], groups, base);
      forall j | 0 <= j < |idx|
        ensures apps[..n][idx[j]] == apps[idx[j]]
      {
      }
    }
  }

  /** No training example ever takes the zero default: every competency
      cell of every assembled row is the application's stored score. */
  lemma {:induction false} AssembledScoresAreStored(apps: seq<AppRow>, groups: Groups, base: map<AppId, Base>)
    ensures |Assemble(apps, groups, base).x| == |KeptIndices(apps, groups, base)|
    ensures var ts := Assemble(apps, groups, base);
            var idx := KeptIndices(apps, groups, base);
            forall j, k :: 0 <= j < |idx| && 0 <= k < |RequiredCompetencies| ==>
              |ts.x[j]| == |TrainColumns|
              && ts.x[j][3 + k] == Num(groups[apps[idx[j]].id][RequiredCompetencies[k]])
  {
    AssembleFollowsKept(apps, groups, base);
    var idx := KeptIndices(apps, groups, base);
    forall j | 0 <= j < |idx|
      ensures forall k :: 0 <= k < |RequiredCompetencies| ==>
                Assemble(apps, groups, base).x[j][3 + k] == Num(groups[apps[idx[j]].id][RequiredCompetencies[k]])
    {
      var a := apps[idx[j]];
      CompleteRowUsesStoredScores(base[a.id], groups[a.id]);
    }
  }

  /** The training loop as written: walk the selected applications, look up
      the competency map, check the eight names, look up the base data, and
      append a row and a label together. */
  method BuildTrainingSet(apps: seq<AppRow>, groups: Groups, base: map<AppId, Base>)
    returns (x: seq<Row>, y: seq<int>)
    ensures TrainingSet(x, y) == Assemble(apps, groups, base)
    ensures |x| == |y|
  {
    x, y := [], [];
    var i := 0;
    while i < |apps|
      invariant 0 <= i <= |apps|
      invariant TrainingSet(x, y) == Assemble(apps[..i], groups, base)
    {
      var cand := apps[i];
      if cand.id in groups {
        var compDict := groups[cand.id];
        if HasAllRequired(compDict) {
          if cand.id in base {
            var data := base[cand.id];
            x := x + [TrainingRow(data, compDict)];
            y := y + [Label(cand.status)];
          }
        }
      }
      assert apps[..i + 1][..i] == apps[..i];
      i := i + 1;
    }
    assert apps[..|apps|] == apps;
  }
}

=== FILE: consistency.dfy ===
/** Agreement between training and prediction: the feature row the predict
    query builds for an application is the row retrain trained on. */
module Consistency {
  import opened Http
  import opened Schema
  import opened Grouping
  import opened Assembly
  import opened Predict

  /** When no two competency rows carry (id, name), the subquery and the
      grouping agree on the score the grouping holds for the pair. */
  lemma {:induction false} SubqueryMatchesGroup(comps: seq<CompetencyRow>, id: AppId, name: string)
    requires id in Group(comps) && name in Group(comps)[id]
    requires forall i, j :: 0 <= i < j < |comps| && SamePair(comps[i], id, name) ==> !SamePair(comps[j], id, name)
    ensures ScalarScore(comps, id, name) == Ok(Group(comps)[id][name])
  {
    GroupEntryHasRow(comps, id, name);
    var i :| LastRowWith(comps, id, name, i) && Group(comps)[id][name] == comps[i].nota;
    assert OnlyRowWith(comps, id, name, i);
    ScalarScoreCases(comps, id, name);
  }

  /** The same agreement for every name in a list the grouping holds, when
      no listed name is carried by two rows of the application. */
  lemma {:induction false} SubqueriesMatchGroup(comps: seq<CompetencyRow>, id: AppId, names: seq<string>)
    requires id in Group(comps)
    requires forall k :: 0 <= k < |names| ==> names[k] in Group(comps)[id]
    requires forall k, i, j :: 0 <= k < |names| && 0 <= i < j < |comps| && SamePair(comps[i], id, names[k])
                               ==> !SamePair(comps[j], id, names[k])
    ensures forall k :: 0 <= k < |names| ==>
              ScalarScore(comps, id, names[k]) == Ok(Group(comps)[id][names[k]])
  {
    forall k | 0 <= k < |names|
      ensures ScalarScore(comps, id, names[k]) == Ok(Group(comps)[id][names[k]])
    {
      SubqueryMatchesGroup(comps, id, names[k]);
    }
  }

  /** A complete application's grouping holds every selected competency. */
  lemma {:induction false} SelectedAreGrouped(comps: seq<CompetencyRow>, a: AppRow, base: map<AppId, Base>)
    requires Contributes(a, Group(comps), base)
    ensures forall k :: 0 <= k < |SelectedCompetencies| ==> SelectedCompetencies[k] in Group(comps)[a.id]
  {
    SelectedAreRequired();
  }

  /** The predict query succeeds once the base data exists and every
      competency subquery does. */
  lemma {:induction false} PredictRowSucceeds(comps: seq<CompetencyRow>, id: AppId, base: map<AppId, Base>)
    requires id in base
    requires forall k :: 0 <= k < |SelectedCompetencies| ==> ScalarScore(comps, id, SelectedCompetencies[k]).Ok?
    ensures PredictRow(base, comps, id).Ok?
  {
  }

  /** The stored scores of a complete score map, in the order of the
      required list. */
  function StoredCells(scores: map<string, int>): Row
    requires HasAllRequired(scores)
  {
    seq(|RequiredCompetencies|, k requires 0 <= k < |RequiredCompetencies| => Num(scores[RequiredCompetencies[k]]))
  }

  /** A complete application's training row is its base data followed by its
      stored scores. */
  lemma {:induction false} TrainingRowOfComplete(b: Base, scores: map<string, int>)
    requires HasAllRequired(scores)
    ensures TrainingRow(b, scores) == BaseCells(b) + StoredCells(scores)
  {
    var row := TrainingRow(b, scores);
    var expected := BaseCells(b) + StoredCells(scores);
    CompleteRowUsesStoredScores(b, scores);
    ColumnsAgree();
    forall i | 0 <= i < |row|
      ensures row[i] == expected[i]
    {
      if 3 <= i {
        var k := i - 3;
        assert row[3 + k] == Num(scores[RequiredCompetencies[k]]);
      }
    }
    assert row == expected;
  }

  /** Once every subquery yields the score a complete score map holds, the
      predict row is the base data followed by those scores. */
  lemma {:induction false} PredictRowOfScores(comps: seq<CompetencyRow>, id: AppId, base: map<AppId, Base>,
                                              scores: map<string, int>)
    requires id in base
    requires HasAllRequired(scores)
    requires forall k :: 0 <= k < |SelectedCompetencies| ==>
               SelectedCompetencies[k] in scores
               && ScalarScore(comps, id, SelectedCompetencies[k]) == Ok(scores[SelectedCompetencies[k]])
    ensures PredictRow(base, comps, id) == Ok(BaseCells(base[id]) + StoredCells(scores))
  {
    PredictRowSucceeds(comps, id, base);
    var row := PredictRow(base, comps, id).value;
    var expected := BaseCells(base[id]) + StoredCells(scores);
    SelectedAreRequired();
    ColumnsAgree();
    forall i | 0 <= i < |row|
      ensures row[i] == expected[i]
    {
      if i < 3 {
        assert row[i] == row[..3][i];
      }
    }
    assert row == expected;
  }

  /** Once every subquery yields the score a complete score map holds, the
      predict row is the training row built from that map. */
  lemma {:induction false} PredictRowMatchesTrainingRow(comps: seq<CompetencyRow>, id: AppId, base: map<AppId, Base>,
                                                        scores: map<string, int>)
    requires id in base
    requires HasAllRequired(scores)
    requires forall k :: 0 <= k < |SelectedCompetencies| ==>
               SelectedCompetencies[k] in scores
               && ScalarScore(comps, id, SelectedCompetencies[k]) == Ok(scores[SelectedCompetencies[k]])
    ensures PredictRow(base, comps, id) == Ok(TrainingRow(base[id], scores))
  {
    PredictRowOfScores(comps, id, base, scores);
    TrainingRowOfComplete(base[id], scores);
  }

  /** Training and prediction see the same feature row: for a complete
      application with at most one row per required competency, the predict
      query yields exactly the row retrain trained on. Other names may
      repeat; the predict query never asks for them. */
  lemma {:induction false} TrainPredictAgree(comps: seq<CompetencyRow>, a: AppRow, base: map<AppId, Base>)
    requires Contributes(a, Group(comps), base)
    requires forall k, i, j :: 0 <= k < |RequiredCompetencies| && 0 <= i < j < |comps|
                               && SamePair(comps[i], a.id, RequiredCompetencies[k])
                               ==> !SamePair(comps[j], a.id, RequiredCompetencies[k])
    ensures PredictRow(base, comps, a.id) == Ok(FeatureRow(a, Group(comps), base))
  {
    SelectedAreGrouped(comps, a, base);
    SelectedAreRequired();
    SubqueriesMatchGroup(comps, a.id, SelectedCompetencies);
    PredictRowMatchesTrainingRow(comps, a.id, base, Group(comps)[a.id]);
  }

  /** Where training and prediction part ways: two competency rows of one
      application under the same required name. The predict query fails with
      the database's many-rows error, while retrain, for a complete
      application, trains on the score of the last such row. */
  lemma {:induction false} DuplicateNameDiverges(comps: seq<CompetencyRow>, a: AppRow, base: map<AppId, Base>,
                                                 k: int, i: int, j: int)
    requires 0 <= k < |RequiredCompetencies|
    requires 0 <= i < j < |comps|
    requires SamePair(comps[i], a.id, RequiredCompetencies[k]) && SamePair(comps[j], a.id, RequiredCompetencies[k])
    ensures a.id in base ==> PredictRow(base, comps, a.id) == Err(SubqueryManyRows)
    ensures Contributes(a, Group(comps), base) ==>
              exists l :: && j <= l
                          && LastRowWith(comps, a.id, RequiredCompetencies[k], l)
                          && FeatureRow(a, Group(comps), base)[3 + k] == Num(comps[l].nota)
  {
    SelectedAreRequired();
    ScalarScoreCases(comps, a.id, RequiredCompetencies[k]);
    if Contributes(a, Group(comps), base) {
      GroupEntryHasRow(comps, a.id, RequiredCompetencies[k]);
      CompleteRowUsesStoredScores(base[a.id], Group(comps)[a.id]);
    }
  }
}

=== FILE: grouping.dfy ===
/** Grouping of the raw competency rows into a per-application map from
    competency name to score, in the order the rows are fetched. */
module Grouping {
  import opened Schema

  /** One row of the competency table: (id_candidatura, nombre_competencia, nota). */
  datatype CompetencyRow = CompetencyRow(id: AppId, name: string, nota: int)

  type Groups = map<AppId, map<string, int>>

  predicate SamePair(r: CompetencyRow, id: AppId, name: string) {
    r.id == id && r.name == name
  }

  /** One step of the grouping loop: create the application's map if it is
      new, then overwrite the score stored under the row's name. */
  function Insert(g: Groups, r: CompetencyRow): (h: Groups)
    ensures r.id in h && r.name in h[r.id]
    ensures h[r.id][r.name] == r.nota
  {
    var inner := if r.id in g then g[r.id] else map[];
    g[r.id := inner[r.name := r.nota]]
  }

  /** Nothing else changes in a grouping step: the step adds only the row's
      application and name, and every other application, and every other
      name of this one, keeps its score. */
  lemma {:induction false} InsertKeepsOthers(g: Groups, r: CompetencyRow)
    ensures forall id :: id in Insert(g, r) <==> id in g || id == r.id
    ensures forall id :: id in g && id != r.id ==> Insert(g, r)[id] == g[id]
    ensures forall n :: n in Insert(g, r)[r.id] <==> n == r.name || (r.id in g && n in g[r.id])
    ensures forall n :: r.id in g && n in g[r.id] && n != r.name ==> Insert(g, r)[r.id][n] == g[r.id][n]
  {
  }

  /** The grouping of `rows`, folded from the first row to the last. An
      application has an entry exactly when some row carries its id. */
  function Group(rows: seq<CompetencyRow>): (g: Groups)
    ensures forall id :: id in g <==> exists i :: 0 <= i < |rows| && rows[i].id == id
    decreases |rows|
  {
    if |rows| == 0 then map[]
    else
      var prev := Group(rows[..|rows| - 1]);
      assert forall i :: 0 <= i < |rows| - 1 ==> rows[..|rows| - 1][i] == rows[i];
      Insert(prev, rows[|rows| - 1])
  }

  /** Last write wins: the score stored for a row's (id, name) pair is the
      score of that row when no later row carries the same pair. */
  lemma {:induction false} GroupLastWriteWins(rows: seq<CompetencyRow>, i: int)
    requires 0 <= i < |rows|
    requires forall j :: i < j < |rows| ==> !SamePair(rows[j], rows[i].id, rows[i].name)
    ensures rows[i].id in Group(rows) && rows[i].name in Group(rows)[rows[i].id]
    ensures Group(rows)[rows[i].id][rows[i].name] == rows[i].nota
    decreases |rows|
  {
    if i < |rows| - 1 {
      var prefix := rows[..|rows| - 1];
      assert prefix[i] == rows[i];
      forall j | i < j < |prefix|
        ensures !SamePair(prefix[j], prefix[i].id, prefix[i].name)
      {
        assert prefix[j] == rows[j];
      }
      GroupLastWriteWins(prefix, i);
    }
  }

  /** Row `i` carries (id, name) and no later row does. */
  predicate LastRowWith(rows: seq<CompetencyRow>, id: AppId, name: string, i: int) {
    && 0 <= i < |rows|
    && SamePair(rows[i], id, name)
    && forall j :: i < j < |rows| ==> !SamePair(rows[j], id, name)
  }

  /** Conversely, every stored score comes from a row with that pair, and it
      is the last such row. */
  lemma {:induction false} GroupEntryHasRow(rows: seq<CompetencyRow>, id: AppId, name: string)
    requires id in Group(rows) && name in Group(rows)[id]
    ensures exists i :: LastRowWith(rows, id, name, i) && Group(rows)[id][name] == rows[i].nota
    decreases |rows|
  {
    var n := |rows| - 1;
    if SamePair(rows[n], id, name) {
      assert LastRowWith(rows, id, name, n);
    } else {
      var prefix := rows[..n];
      GroupEntryHasRow(prefix, id, name);
      var i :| LastRowWith(prefix, id, name, i) && Group(prefix)[id][name] == prefix[i].nota;
      assert rows[i] == prefix[i];
      forall j | i < j < |rows|
        ensures !SamePair(rows[j], id, name)
      {
        if j < n {
          assert rows[j] == prefix[j];
        }
      }
      assert LastRowWith(rows, id, name, i);
    }
  }

  /** A pair has a stored score exactly when some row carries it. */
  lemma {:induction false} GroupHasPair(rows: seq<CompetencyRow>, id: AppId, name: string)
    ensures (id in Group(rows) && name in Group(rows)[id])
            <==> exists i :: 0 <= i < |rows| && SamePair(rows[i], id, name)
  {
    if id in Group(rows) && name in Group(rows)[id] {
      GroupEntryHasRow(rows, id, name);
    }
    if i :| 0 <= i < |rows| && SamePair(rows[i], id, name) {
      var last := LastWith(rows, id, name, i);
      GroupLastWriteWins(rows, last);
    }
  }

  /** The index of the last row carrying (id, name), given one that does. */
  ghost function LastWith(rows: seq<CompetencyRow>, id: AppId, name: string, i: int): (k: int)
    requires 0 <= i < |rows| && SamePair(rows[i], id, name)
    ensures i <= k < |rows| && SamePair(rows[k], id, name)
    ensures forall j :: k < j < |rows| ==> !SamePair(rows[j], id, name)
    decreases |rows| - i
  {
    if exists j :: i < j < |rows| && SamePair(rows[j], id, name) then
      var j :| i < j < |rows| && SamePair(rows[j], id, name);
      LastWith(rows, id, name, j)
    else i
  }
}

=== FILE: http.dfy ===
/** Failures the service reports to its HTTP caller, and the Result type the
    operations return instead of raising. */
module Http {

  datatype Error =
    | NoTrainingData       // retrain: no competency rows, or no application with an eligible status
    | NoValidTrainingData  // retrain: no application survived the completeness filter
    | ApplicationNotFound  // predict: no candidate row joins the requested application
    | SubqueryManyRows     // predict: a scalar competency subquery matched several rows
  {
    /** The HTTP status the caller sees; the database error is not caught,
        so the framework answers it with a server error. */
    function StatusCode(): int {
      match this
      case NoTrainingData => 404
      case NoValidTrainingData => 400
      case ApplicationNotFound => 404
      case SubqueryManyRows => 500
    }
  }

  datatype Result<+T> = Ok(value: T) | Err(error: Error) {

    predicate IsFailure() {
      Err?
    }

    function PropagateFailure<U>(): Result<U>
      requires Err?
    {
      Err(error)
    }

    function Extract(): T
      requires Ok?
    {
      value
    }
  }
}

=== FILE: predict.dfy ===
/** The predict endpoint: the one-row feature query with its zero defaults,
    the not-found check, and the verdict for the classifier's class. */
module Predict {
  import opened Http
  import opened Schema
  import opened Grouping
  import opened Assembly

  /** The predict response: the requested application and its verdict. */
  datatype Prediction = Prediction(id: AppId, verdict: string)

  /** Row `i` is the one competency row carrying (id, name). */
  predicate OnlyRowWith(comps: seq<CompetencyRow>, id: AppId, name: string, i: int) {
    && 0 <= i < |comps|
    && SamePair(comps[i], id, name)
    && forall j :: 0 <= j < |comps| && j != i ==> !SamePair(comps[j], id, name)
  }

  /** The scores of the competency rows carrying (id, name), in table order. */
  function Matches(comps: seq<CompetencyRow>, id: AppId, name: string): seq<int>
    decreases |comps|
  {
    if |comps| == 0 then []
    else (if SamePair(comps[0], id, name) then [comps[0].nota] else []) + Matches(comps[1..], id, name)
  }

  /** The subquery yields no score exactly when no row carries (id, name). */
  lemma {:induction false} MatchesNone(comps: seq<CompetencyRow>, id: AppId, name: string)
    ensures |Matches(comps, id, name)| == 0 <==> forall i :: 0 <= i < |comps| ==> !SamePair(comps[i], id, name)
    decreases |comps|
  {
    if |comps| > 0 {
      var rest := comps[1..];
      MatchesNone(rest, id, name);
      assert forall i :: 0 < i < |comps| ==> rest[i - 1] == comps[i];
    }
  }

  /** A single row carrying (id, name) gives its score alone. */
  lemma {:induction false} MatchesOnly(comps: seq<CompetencyRow>, id: AppId, name: string, i: int)
    requires OnlyRowWith(comps, id, name, i)
    ensures Matches(comps, id, name) == [comps[i].nota]
    decreases |comps|
  {
    var rest := comps[1..];
    if i > 0 {
      assert OnlyRowWith(rest, id, name, i - 1);
      MatchesOnly(rest, id, name, i - 1);
    } else {
      assert forall j :: 0 <= j < |rest| ==> rest[j] == comps[j + 1];
      MatchesNone(rest, id, name);
    }
  }

  /** Two or more scores come exactly from two distinct rows carrying (id, name). */
  lemma {:induction false} MatchesMany(comps: seq<CompetencyRow>, id: AppId, name: string)
    ensures |Matches(comps, id, name)| >= 2
            <==> exists i, j :: 0 <= i < j < |comps| && SamePair(comps[i], id, name) && SamePair(comps[j], id, name)
    decreases |comps|
  {
    if |comps| > 0 {
      var rest := comps[1..];
      MatchesMany(rest, id, name);
      MatchesNone(rest, id, name);
      if exists i, j :: 0 <= i < j < |comps| && SamePair(comps[i], id, name) && SamePair(comps[j], id, name) {
        var i, j :| 0 <= i < j < |comps| && SamePair(comps[i], id, name) && SamePair(comps[j], id, name);
        assert rest[j - 1] == comps[j];
      }
      if |Matches(comps, id, name)| >= 2 {
        if SamePair(comps[0], id, name) {
          var j :| 0 <= j < |rest| && SamePair(rest[j], id, name);
        } else {
          var i, j :| 0 <= i < j < |rest| && SamePair(rest[i], id, name) && SamePair(rest[j], id, name);
        }
      }
    }
  }

  /** One competency column of the predict query: the scalar subquery for the
      row with this id and name under `IFNULL(…, 0)`. The only way it fails
      is the database's many-rows error. */
  function ScalarScore(comps: seq<CompetencyRow>, id: AppId, name: string): (r: Result<int>)
    ensures r.Err? ==> r.error == SubqueryManyRows
  {
    var m := Matches(comps, id, name);
    if |m| == 0 then Ok(0)
    else if |m| == 1 then Ok(m[0])
    else Err(SubqueryManyRows)
  }

  /** The three outcomes of a scalar subquery: no row reads as 0, a single
      row gives its score, and the query fails exactly when two rows carry
      the pair. */
  lemma {:induction false} ScalarScoreCases(comps: seq<CompetencyRow>, id: AppId, name: string)
    ensures (forall i :: 0 <= i < |comps| ==> !SamePair(comps[i], id, name))
            ==> ScalarScore(comps, id, name) == Ok(0)
    ensures forall i :: OnlyRowWith(comps, id, name, i) ==> ScalarScore(comps, id, name) == Ok(comps[i].nota)
    ensures ScalarScore(comps, id, name).Err?
            <==> exists i, j :: 0 <= i < j < |comps| && SamePair(comps[i], id, name) && SamePair(comps[j], id, name)
  {
    MatchesNone(comps, id, name);
    MatchesMany(comps, id, name);
    forall i | OnlyRowWith(comps, id, name, i)
      ensures ScalarScore(comps, id, name) == Ok(comps[i].nota)
    {
      MatchesOnly(comps, id, name, i);
    }
  }

  /** The scalar subqueries for `names`, evaluated in order; the first one
      the database rejects fails the whole query. */
  function Subqueries(comps: seq<CompetencyRow>, id: AppId, names: seq<string>): (r: Result<seq<int>>)
    ensures r.Err? <==> exists k :: 0 <= k < |names| && ScalarScore(comps, id, names[k]).Err?
    ensures r.Ok? ==> |r.value| == |names|
    ensures r.Ok? ==> forall k :: 0 <= k < |names| ==> ScalarScore(comps, id, names[k]) == Ok(r.value[k])
    ensures r.Err? ==> r.error == SubqueryManyRows
    decreases |names|
  {
    if |names| == 0 then Ok([])
    else
      var score :- ScalarScore(comps, id, names[0]);
      var rest :- Subqueries(comps, id, names[1..]);
      assert forall k :: 0 < k < |names| ==> names[1..][k - 1] == names[k];
      Ok([score] + rest)
  }

  /** The feature row of the predict query, in the order it selects its
      columns: the base data, then one scalar subquery per competency. */
  function PredictRow(base: map<AppId, Base>, comps: seq<CompetencyRow>, id: AppId): (r: Result<Row>)
    ensures id !in base ==> r == Err(ApplicationNotFound)
    ensures id in base && r.Err? ==> r.error == SubqueryManyRows
    ensures id in base ==>
              (r.Err? <==> exists k :: 0 <= k < |SelectedCompetencies| && ScalarScore(comps, id, SelectedCompetencies[k]).Err?)
    ensures r.Ok? ==> id in base && |r.value| == |PredictColumns|
    ensures r.Ok? ==> r.value[..3] == BaseCells(base[id])
    ensures r.Ok? ==> forall k :: 0 <= k < |SelectedCompetencies| ==>
              r.value[3 + k].Num? && ScalarScore(comps, id, SelectedCompetencies[k]) == Ok(r.value[3 + k].n)
  {
    if id !in base then Err(ApplicationNotFound)
    else
      var b := base[id];
      var scores :- Subqueries(comps, id, SelectedCompetencies);
      Ok(BaseCells(b)
         + seq(|scores|, i requires 0 <= i < |scores| => Num(scores[i])))
  }

  /** The predict endpoint against the classifier `model`, applied through
      `classify`: the verdict admits exactly when the class is 1. */
  function Predict<M>(model: M, classify: (M, Row) -> int, base: map<AppId, Base>,
                      comps: seq<CompetencyRow>, id: AppId): (r: Result<Prediction>)
    ensures id !in base ==> r == Err(ApplicationNotFound)
    ensures r.Err? <==> PredictRow(base, comps, id).Err?
    ensures r.Err? ==> r.error == PredictRow(base, comps, id).error
    ensures r.Ok? ==> r.value.id == id
    ensures r.Ok? ==> (r.value.verdict == Admitted <==> classify(model, PredictRow(base, comps, id).value) == 1)
    ensures r.Ok? ==> r.value.verdict == Admitted || r.value.verdict == Rejected
  {
    var row :- PredictRow(base, comps, id);
    Ok(Prediction(id, Verdict(classify(model, row))))
  }

  /** The HTTP status of a failed prediction: 404 exactly when the
      application has no base data, otherwise the server error the uncaught
      database error becomes. */
  lemma {:induction false} PredictStatus<M>(model: M, classify: (M, Row) -> int, base: map<AppId, Base>,
                                            comps: seq<CompetencyRow>, id: AppId)
    requires Predict(model, classify, base, comps, id).Err?
    ensures Predict(model, classify, base, comps, id).error.StatusCode() == 404 <==> id !in base
    ensures Predict(model, classify, base, comps, id).error.StatusCode() == 500 <==> id in base
  {
  }

  /** A competency without a row reads as 0 at prediction time, not as an
      error: given base data and the other subqueries succeeding, the query
      succeeds and the competency's cell is 0. */
  lemma {:induction false} MissingCompetencyIsZero(base: map<AppId, Base>, comps: seq<CompetencyRow>, id: AppId, k: int)
    requires 0 <= k < |RequiredCompetencies|
    requires id in base
    requires forall j :: 0 <= j < |SelectedCompetencies| && j != k ==> ScalarScore(comps, id, SelectedCompetencies[j]).Ok?
    requires forall i :: 0 <= i < |comps| ==> !SamePair(comps[i], id, RequiredCompetencies[k])
    ensures PredictRow(base, comps, id).Ok?
    ensures PredictRow(base, comps, id).value[3 + k] == Num(0)
  {
    SelectedAreRequired();
    ScalarScoreCases(comps, id, RequiredCompetencies[k]);
  }
}

=== FILE: retrain.dfy ===
/** The data side of the retrain endpoint: the two emptiness checks around
    the assembly of the training set. Fitting and saving the classifier are
    in the Service module. */
module Retrain {
  import opened Http
  import opened Schema
  import opened Grouping
  import opened Assembly

  /** The training set retrain fits on, from the competency rows, the
      application table and the candidate base data joined per application. */
  function TrainingData(comps: seq<CompetencyRow>, table: seq<AppRow>, base: map<AppId, Base>)
    : (r: Result<TrainingSet>)
    ensures r == Err(NoTrainingData) <==> |comps| == 0 || |Eligible(table)| == 0
    ensures r.Err? ==> r.error == NoTrainingData || r.error == NoValidTrainingData
    ensures r.Ok? ==> 0 < |r.value.x| == |r.value.y|
    ensures r.Ok? ==> r.value == Assemble(Eligible(table), Group(comps), base)
  {
    var candidaturas := Eligible(table);
    if |comps| == 0 || |candidaturas| == 0 then Err(NoTrainingData)
    else
      var ts := Assemble(candidaturas, Group(comps), base);
      if |ts.x| == 0 || |ts.y| == 0 then Err(NoValidTrainingData) else Ok(ts)
  }

  /** An application is complete exactly when, for each required name, some
      competency row carries its id and that name, and base data exists. */
  lemma {:induction false} CompleteIffRowsPresent(comps: seq<CompetencyRow>, a: AppRow, base: map<AppId, Base>)
    ensures Contributes(a, Group(comps), base)
            <==> (&& a.id in base
                  && forall k :: 0 <= k < |RequiredCompetencies| ==>
                       exists i :: 0 <= i < |comps| && SamePair(comps[i], a.id, RequiredCompetencies[k]))
  {
    var g := Group(comps);
    forall k | 0 <= k < |RequiredCompetencies|
      ensures (a.id in g && RequiredCompetencies[k] in g[a.id])
              <==> exists i :: 0 <= i < |comps| && SamePair(comps[i], a.id, RequiredCompetencies[k])
    {
      GroupHasPair(comps, a.id, RequiredCompetencies[k]);
    }
    if a.id !in g {
      var first := RequiredCompetencies[0];
      GroupHasPair(comps, a.id, first);
      assert !(exists i :: 0 <= i < |comps| && SamePair(comps[i], a.id, first));
    }
  }

  /** Retrain answers 400 exactly when there is data but no selected
      application is complete. */
  lemma {:induction false} InsufficientValidData(comps: seq<CompetencyRow>, table: seq<AppRow>, base: map<AppId, Base>)
    ensures TrainingData(comps, table, base) == Err(NoValidTrainingData)
            <==> (&& |comps| > 0
                  && |Eligible(table)| > 0
                  && forall a :: a in Eligible(table) ==> !Contributes(a, Group(comps), base))
  {
    var e := Eligible(table);
    var g := Group(comps);
    AssembleFollowsKept(e, g, base);
    var idx := KeptIndices(e, g, base);
    if a :| a in e && Contributes(a, g, base) {
      var i :| 0 <= i < |e| && e[i] == a;
      assert i in idx;
    }
    if |idx| > 0 {
      assert e[idx[0]] in e;
    }
  }

  /** The HTTP status of a failed retrain: 404 exactly when there is no
      data at all, 400 exactly when there is data but none of it is valid. */
  lemma {:induction false} RetrainStatus(comps: seq<CompetencyRow>, table: seq<AppRow>, base: map<AppId, Base>)
    requires TrainingData(comps, table, base).Err?
    ensures TrainingData(comps, table, base).error.StatusCode() == 404
            <==> |comps| == 0 || |Eligible(table)| == 0
    ensures TrainingData(comps, table, base).error.StatusCode() == 400
            <==> (&& |comps| > 0
                  && |Eligible(table)| > 0
                  && forall a :: a in Eligible(table) ==> !Contributes(a, Group(comps), base))
  {
    InsufficientValidData(comps, table, base);
  }

  /** Every example retrain fits on comes from a selected, complete
      application, in the order of the selected rows, with its feature row
      and label side by side; the label is 0 exactly for "Descartado". */
  lemma {:induction false} RetrainExamples(comps: seq<CompetencyRow>, table: seq<AppRow>, base: map<AppId, Base>)
    requires TrainingData(comps, table, base).Ok?
    ensures var ts := TrainingData(comps, table, base).value;
            var e := Eligible(table);
            var idx := KeptIndices(e, Group(comps), base);
            && |ts.x| == |ts.y| == |idx| > 0
            && forall j :: 0 <= j < |idx| ==>
                 && e[idx[j]] in table
                 && ts.x[j] == FeatureRow(e[idx[j]], Group(comps), base)
                 && ts.y[j] == Label(e[idx[j]].status)
                 && (ts.y[j] == 0 <==> e[idx[j]].status == "Descartado")
  {
    var e := Eligible(table);
    var g := Group(comps);
    AssembleFollowsKept(e, g, base);
    var idx := KeptIndices(e, g, base);
    forall j | 0 <= j < |idx|
      ensures e[idx[j]] in table && e[idx[j]].status in EligibleStatuses
    {
      assert e[idx[j]] in e;
    }
  }
}

=== FILE: schema.dfy ===
/** The fixed vocabulary shared by training and prediction: competency names,
    feature columns, application statuses, and the label and verdict rules. */
module Schema {

  /** `id_candidatura`, the identifier of one application. */
  type AppId = int

  /** The eight competencies an application must have to be used for training,
      in the order the training loop lists them. */
  const RequiredCompetencies: seq<string> :=
    ["Profesionalidad", "Dominio", "Resiliencia", "HabilidadesSociales",
     "Liderazgo", "Colaboracion", "Compromiso", "Iniciativa"]

  /** A feature column: one of the three base columns, or the score of the
      named competency. */
  datatype Column = Edad | NotaMedia | NivelIngles | Score(competency: string)
  {
    /** The column's name in the data frame. */
    function Name(): string {
      match this
      case Edad => "edad"
      case NotaMedia => "nota_media"
      case NivelIngles => "nivel_ingles"
      case Score(c) => c
    }
  }

  /** Columns of the training frame. */
  const TrainColumns: seq<Column> :=
    [Edad, NotaMedia, NivelIngles, Score("Profesionalidad"), Score("Dominio"), Score("Resiliencia"),
     Score("HabilidadesSociales"), Score("Liderazgo"), Score("Colaboracion"), Score("Compromiso"),
     Score("Iniciativa")]

  /** The competencies the predict query selects, one scalar subquery each,
      in the order of its select list. */
  const SelectedCompetencies: seq<string> :=
    ["Profesionalidad", "Dominio", "Resiliencia", "HabilidadesSociales",
     "Liderazgo", "Colaboracion", "Compromiso", "Iniciativa"]

  /** Columns of the one-row frame handed to the classifier at prediction time. */
  const PredictColumns: seq<Column> :=
    [Edad, NotaMedia, NivelIngles, Score("Profesionalidad"), Score("Dominio"), Score("Resiliencia"),
     Score("HabilidadesSociales"), Score("Liderazgo"), Score("Colaboracion"), Score("Compromiso"),
     Score("Iniciativa")]

  /** The column names of both data frames, as listed. */
  const FrameColumnNames: seq<string> :=
    ["edad", "nota_media", "nivel_ingles", "Profesionalidad", "Dominio", "Resiliencia",
     "HabilidadesSociales", "Liderazgo", "Colaboracion", "Compromiso", "Iniciativa"]

  /** Statuses the training query selects. */
  const EligibleStatuses: set<string> :=
    {"Entrevista2", "Ofertado", "Entrevista1", "CentroEvaluación", "Descartado"}

  /** Statuses that make a positive training example. */
  const PositiveStatuses: set<string> :=
    {"Entrevista2", "Ofertado", "Entrevista1", "CentroEvaluación"}

  const Admitted: string := "Admitido"
  const Rejected: string := "Rechazado"

  /** Candidate base data joined to an application: age, average grade and
      English level (a category). The grade is a float in the store; here it
      is an integer, since nothing in the core computes with it. */
  datatype Base = Base(edad: int, notaMedia: int, nivelIngles: string)

  /** One cell of a feature row: numeric, or the categorical English level. */
  datatype Cell = Num(n: int) | Cat(s: string)

  type Row = seq<Cell>

  /** The three base-data cells a feature row starts with. */
  function BaseCells(b: Base): Row {
    [Num(b.edad), Num(b.notaMedia), Cat(b.nivelIngles)]
  }

  /** Python's `scores.get(name, 0)`. */
  function ScoreOr0(scores: map<string, int>, name: string): int {
    if name in scores then scores[name] else 0
  }

  /** What column `col` holds for a candidate with base data `b` and
      competency scores `scores`: the base data for the base columns, the
      competency's score for the others, 0 when it is absent. */
  function ColumnValue(b: Base, scores: map<string, int>, col: Column): Cell {
    match col
    case Edad => Num(b.edad)
    case NotaMedia => Num(b.notaMedia)
    case NivelIngles => Cat(b.nivelIngles)
    case Score(c) => Num(ScoreOr0(scores, c))
  }

  /** The training label of an application with the given status: binary,
      and among the statuses the training query selects, 0 exactly for
      "Descartado"; every status labelled 1 is itself selected. */
  function Label(status: string): (y: int)
    ensures y == 0 || y == 1
    ensures status in EligibleStatuses ==> (y == 0 <==> status == "Descartado")
    ensures y == 1 ==> status in EligibleStatuses
  {
    if status in PositiveStatuses then 1 else 0
  }

  /** The verdict string for the classifier's class: it admits exactly
      class 1 and rejects every other class. */
  function Verdict(cls: int): (v: string)
    ensures v == Admitted <==> cls == 1
    ensures v == Rejected <==> cls != 1
  {
    if cls == 1 then Admitted else Rejected
  }

  /** No competency is listed twice. */
  lemma RequiredDistinct()
    ensures forall i, j :: 0 <= i < j < |RequiredCompetencies| ==> RequiredCompetencies[i] != RequiredCompetencies[j]
  {
  }

  /** The predict query selects the required competencies, in their order. */
  lemma SelectedAreRequired()
    ensures SelectedCompetencies == RequiredCompetencies
  {
  }

  /** Training and prediction agree on the columns: the same eleven columns
      in the same order, the three base columns first and then the scores of
      the eight required competencies in their listed order. */
  lemma ColumnsAgree()
    ensures TrainColumns == PredictColumns
    ensures |TrainColumns| == 3 + |RequiredCompetencies|
    ensures TrainColumns[..3] == [Edad, NotaMedia, NivelIngles]
    ensures forall k :: 0 <= k < |RequiredCompetencies| ==> TrainColumns[3 + k] == Score(RequiredCompetencies[k])
  {
  }

  /** The feature columns carry exactly the data-frame column names, in order. */
  lemma ColumnsNamed()
    ensures |PredictColumns| == |FrameColumnNames|
    ensures forall i :: 0 <= i < |PredictColumns| ==> PredictColumns[i].Name() == FrameColumnNames[i]
  {
  }
}

=== FILE: service.dfy ===
/** The classifier the service answers with. The process loads the model
    file once at start-up; retrain fits a new classifier on the assembled
    training set and overwrites that file. The classifier itself is opaque:
    `fit` builds one from a training set and `classify` applies one to a
    feature row. */
module Service {
  import opened Http
  import opened Schema
  import opened Grouping
  import opened Assembly
  import opened Retrain
  import opened Predict
  import opened Consistency

  /** The model held in the process and the model stored in the model file. */
  datatype Server<M> = Server(loaded: M, stored: M)

  /** Start-up: the process holds the model the file holds. */
  function Start<M>(stored: M): (s: Server<M>)
    ensures s.loaded == stored && s.stored == stored
  {
    Server(stored, stored)
  }

  /** Retrain as written: on success the freshly fitted classifier replaces
      the stored model only; the model predict uses stays as loaded. */
  function RetrainAsWritten<M>(s: Server<M>, fit: (seq<Row>, seq<int>) -> M,
                               comps: seq<CompetencyRow>, table: seq<AppRow>, base: map<AppId, Base>)
    : (r: Result<Server<M>>)
    ensures r.Err? <==> TrainingData(comps, table, base).Err?
    ensures r.Err? ==> r.error == TrainingData(comps, table, base).error
    ensures r.Ok? ==> var ts := TrainingData(comps, table, base).value;
                      r.value.stored == fit(ts.x, ts.y) && r.value.loaded == s.loaded
  {
    var ts :- TrainingData(comps, table, base);
    Ok(s.(stored := fit(ts.x, ts.y)))
  }

  /** Retrain with the new classifier installed in the process as well as
      stored, so that later predictions use it. */
  function RetrainAndReload<M>(s: Server<M>, fit: (seq<Row>, seq<int>) -> M,
                               comps: seq<CompetencyRow>, table: seq<AppRow>, base: map<AppId, Base>)
    : (r: Result<Server<M>>)
    ensures r.Err? <==> TrainingData(comps, table, base).Err?
    ensures r.Err? ==> r.error == TrainingData(comps, table, base).error
    ensures r.Ok? ==> var ts := TrainingData(comps, table, base).value;
                      r.value.stored == fit(ts.x, ts.y) && r.value.loaded == fit(ts.x, ts.y)
  {
    var ts :- TrainingData(comps, table, base);
    var fitted := fit(ts.x, ts.y);
    Ok(Server(fitted, fitted))
  }

  /** A restart reloads the stored model and leaves the file as it is. */
  function Restart<M>(s: Server<M>): (t: Server<M>)
    ensures t.loaded == s.stored && t.stored == s.stored
  {
    Start(s.stored)
  }

  /** The predict endpoint of a running service: it classifies with the
      loaded model, whatever the file holds. */
  function PredictOn<M>(s: Server<M>, classify: (M, Row) -> int, base: map<AppId, Base>,
                        comps: seq<CompetencyRow>, id: AppId): (r: Result<Prediction>)
    ensures r.Err? <==> PredictRow(base, comps, id).Err?
    ensures r.Err? ==> r.error == PredictRow(base, comps, id).error
    ensures r.Ok? ==> r.value.id == id
    ensures r.Ok? ==> (r.value.verdict == Admitted <==> classify(s.loaded, PredictRow(base, comps, id).value) == 1)
  {
    Predict.Predict(s.loaded, classify, base, comps, id)
  }

  /** As written, a successful retrain changes no prediction until the
      service restarts: every request is answered as before. */
  lemma {:induction false} RetrainLeavesPredictionsAsWritten<M>(
    s: Server<M>, fit: (seq<Row>, seq<int>) -> M, classify: (M, Row) -> int,
    comps: seq<CompetencyRow>, table: seq<AppRow>, base: map<AppId, Base>, id: AppId)
    requires RetrainAsWritten(s, fit, comps, table, base).Ok?
    ensures PredictOn(RetrainAsWritten(s, fit, comps, table, base).value, classify, base, comps, id)
            == PredictOn(s, classify, base, comps, id)
    ensures var ts := TrainingData(comps, table, base).value;
            PredictOn(Restart(RetrainAsWritten(s, fit, comps, table, base).value), classify, base, comps, id)
            == Predict.Predict(fit(ts.x, ts.y), classify, base, comps, id)
  {
  }

  /** With the reload, every prediction after a successful retrain is made by
      the classifier fitted on the new training set. */
  lemma {:induction false} PredictSeesRetrainedModel<M>(
    s: Server<M>, fit: (seq<Row>, seq<int>) -> M, classify: (M, Row) -> int,
    comps: seq<CompetencyRow>, table: seq<AppRow>, base: map<AppId, Base>, id: AppId)
    requires RetrainAndReload(s, fit, comps, table, base).Ok?
    ensures var ts := TrainingData(comps, table, base).value;
            PredictOn(RetrainAndReload(s, fit, comps, table, base).value, classify, base, comps, id)
            == Predict.Predict(fit(ts.x, ts.y), classify, base, comps, id)
    ensures PredictOn(RetrainAndReload(s, fit, comps, table, base).value, classify, base, comps, id)
            == PredictOn(Restart(RetrainAndReload(s, fit, comps, table, base).value), classify, base, comps, id)
  {
  }

  /** One complete application: id 7, status "Ofertado", score 1 in each of
      the eight competencies. */
  function ExampleComps(): seq<CompetencyRow> {
    seq(|RequiredCompetencies|, k requires 0 <= k < |RequiredCompetencies| =>
      CompetencyRow(7, RequiredCompetencies[k], 1))
  }

  /** The example application passes the completeness filter. */
  lemma ExampleContributes()
    ensures Contributes(AppRow(7, "Ofertado"), Group(ExampleComps()), map[7 := Base(30, 8, "B2")])
  {
    var comps := ExampleComps();
    forall k | 0 <= k < |RequiredCompetencies|
      ensures RequiredCompetencies[k] in Group(comps)[7]
    {
      GroupHasPair(comps, 7, RequiredCompetencies[k]);
      assert SamePair(comps[k], 7, RequiredCompetencies[k]);
    }
  }

  /** The example application has a training row, and predict reads back
      exactly that row. */
  lemma ExampleIsComplete()
    ensures Contributes(AppRow(7, "Ofertado"), Group(ExampleComps()), map[7 := Base(30, 8, "B2")])
    ensures PredictRow(map[7 := Base(30, 8, "B2")], ExampleComps(), 7).Ok?
  {
    ExampleContributes();
    RequiredDistinct();
    TrainPredictAgree(ExampleComps(), AppRow(7, "Ofertado"), map[7 := Base(30, 8, "B2")]);
  }

  /** The stale model, concretely: a service started with a classifier that
      rejects everyone is retrained on one positive example into one that
      admits everyone; retrain reports success, yet predict still rejects. */
  lemma StaleModelServed()
    ensures var comps := ExampleComps();
            var table := [AppRow(7, "Ofertado")];
            var base := map[7 := Base(30, 8, "B2")];
            var fit := (x: seq<Row>, y: seq<int>) => 1;
            var classify := (m: int, row: Row) => m;
            var s := RetrainAsWritten(Start(0), fit, comps, table, base);
            && s.Ok?
            && PredictOn(s.value, classify, base, comps, 7) == Ok(Prediction(7, Rejected))
            && PredictOn(Restart(s.value), classify, base, comps, 7) == Ok(Prediction(7, Admitted))
  {
    var comps := ExampleComps();
    var table := [AppRow(7, "Ofertado")];
    var base := map[7 := Base(30, 8, "B2")];
    ExampleIsComplete();
  }
}
